=== FILE: README.md ===
# Escrow swap offers — a Dafny model

This project models the core of a Soroban escrow swap contract. An offeror
locks `send_amount` of one token in the contract and asks for `recv_amount`
of another. Acceptors fill the offer in parts. Each fill pays out
`amount * send_amount / recv_amount` of the locked token, truncated, from
the current remaining balances. The offeror may re-price what is left
(`update`) or cancel and take back what is still locked (`close`). Two
small registries sit beside the ledger: a one-record fee registry and a
token allowance map.

Modules, one per concern:

- `Results` (`results.dfy`): `Option`, `Result` and the contract's failure reasons. Each `panic!` and failed `unwrap` becomes an `Err`.
- `Int128` (`int128.dfy`): the `i128` range, Rust's truncating `/` (`Quot`), checked `*`, `-` and `/`, and the arithmetic lemmas the proofs use.
- `Types` (`types.dfy`): `FeeInfo`, `OfferKey`, `OfferInfo`, `OfferStatus`.
- `Token` (`token.dfy`): every token's balances as one map `(token, holder) -> int`, and `Transfer`.
- `Fee` (`fee.dfy`): `fee_init`, `fee_check`, `fee_get`, `fee_set`, `fee_write` over one optional slot.
- `Allowance` (`allowance.dfy`): `allow`, `disallow`, `is_allowed` over a token → bool map.
- `Offer` (`offer.dfy`): the `Ledger` (the contract's address, `FEE_DECIMALS`, storage and balances) with `calculate_fee`, `create`, `accept`, `update`, `close`, `load_offer` and `write_offer`.
- `Escrow` (`escrow.dfy`): the escrow invariant. For every token, the contract's own balance equals the sum of `send_amount` over the active offers that sell it. Every record is consistent with its key and its status. Each operation preserves the invariant.
- `Contract` (`contract.dfy`): each public operation as a `Call`, the host's all-or-nothing execution (`Apply`), and properties of call sequences.
- `Scenario` (`scenario.dfy`): the numbers of the repository's unit test, which drives a single-offer contract, replayed on this model of the swap contract.

Modelling decisions:

- `require_auth(a)` succeeds exactly when `a` is in the call's `signers` set.
- Every integer overflow traps. `checked_mul(..).unwrap_optimized()` traps explicitly. For `*`, `-=` and `i128::pow`, the model assumes overflow checks are on. Rust's `/` traps on a zero divisor and on `MIN / -1`, and otherwise rounds toward zero.
- The token contracts are not part of this model; they are reduced to `Transfer`. It rejects a negative amount and an amount above the sender's balance, as the standard token interface does. As a result, every successful `create` escrows a positive amount, and every successful `accept` fills a non-negative amount.
- `FEE_DECIMALS` is a field of the `Ledger`, not a fixed number.

Behaviour of the code worth knowing:

- `create` checks neither that a fee is set nor that the tokens are allowed: both checks are commented out (src/offer.rs:42-48). Its only fee dependency is `load_fee` (src/offer.rs:65), which fails after the key, amount and authorisation checks. `Offer.CreateIgnoresAllowances` states this.
- `is_allowed` unwraps the stored flag (src/allow.rs:39), so a token that was never written makes it fail rather than read as `false`.
- Amounts are rejected only when they are zero (src/offer.rs:55, src/offer.rs:183). A token transfer stops only the amounts that are actually transferred: a negative `send_amount` in `create` (src/offer.rs:75), and a negative fill amount or fee in `accept` (src/offer.rs:151-153). `recv_amount` and `min_recv_amount` are never transferred, so both `create` (src/offer.rs:55-60, 85-87) and `update` (src/offer.rs:183-199) can store a negative `recv_amount` or `min_recv_amount`. An offer with a negative `recv_amount` can no longer be filled, but it can be closed.
- `update` overwrites `recv_amount` with any non-zero value (src/offer.rs:198), so `recv_amount` can rise over an offer's life: in the test it goes from 40 to 80 (src/test.rs:147-148). `send_amount` only falls (`Contract.RunSendNonIncreasing`).
- `update` sets `min_recv_amount` to any value up to the new `recv_amount` (src/offer.rs:186, 199), so it can raise or lower the minimum. `accept` is the only operation that lowers it on its own, to what is left (src/offer.rs:165-166).
- Once its checks pass, `update` cannot fail (src/offer.rs:197-200), and under the escrow invariant neither can the refund of `close` (src/offer.rs:220-224).

## Model

| member | source | states |
|---|---|---|
| `Int128.Quot` | src/offer.rs:136 | Signed `/` rounds toward zero: the remainder is smaller than the divisor in magnitude and has the dividend's sign |
| `Int128.CheckedQuot` | src/offer.rs:136 | Division traps on a zero divisor and on an out-of-range quotient, and otherwise yields the truncated quotient |
| `Int128.CheckedMul` | src/offer.rs:136 | `checked_mul` succeeds exactly when the product fits in `i128` |
| `Int128.CheckedSub` | src/offer.rs:158-159 | `-=` succeeds exactly when the difference fits in `i128`, and then yields it |
| `Int128.Pow10` | src/offer.rs:26 | `i128::pow(10, n)` is at least 1, so the fee's divisor is never zero |
| `Int128.Pow10Fits` | src/offer.rs:26 | `10^n` fits in `i128` exactly when n <= 38, so the scale overflows only for `FEE_DECIMALS` above 38 |
| `Token.Transfer` | src/offer.rs:75-76 | A transfer succeeds exactly when 0 <= amount <= the sender's balance. It then moves the amount from sender to receiver and changes no other balance, so it never makes a balance negative |
| `Fee.FeeGet` | src/fee.rs:27-31 | Fails with a missing value exactly when the slot is empty, and otherwise returns the stored record |
| `Fee.FeeCheck` | src/fee.rs:16-25 | True exactly when `fee_get` would succeed |
| `Fee.FeeWrite` | src/fee.rs:42-46 | After a write, `fee_get` returns the record written |
| `Fee.FeeInit` | src/fee.rs:5-14 | Fails exactly when a record exists. On success, `fee_get` returns the given record |
| `Fee.FeeSet` | src/fee.rs:33-39 | Fails exactly when no record exists. On success, both fields are replaced together |
| `Fee.FeeInitOnce` | src/fee.rs:5-39 | After one successful init, every later init fails, and a set succeeds and is what `fee_get` then returns |
| `Fee.InitOrSet` | src/fee.rs:5-8 | On any slot, exactly one of `fee_init` and `fee_set` succeeds |
| `Allowance.IsAllowed` | src/allow.rs:36-40 | Returns the stored flag, and fails for a token that was never written |
| `Allowance.Allow` | src/allow.rs:12-21 | Afterwards the token reads true, and every other token reads as before |
| `Allowance.Disallow` | src/allow.rs:23-32 | Afterwards the token reads false, and every other token reads as before |
| `Allowance.AllowIdempotent` | src/allow.rs:12-21 | Allowing twice equals allowing once |
| `Allowance.DisallowIdempotent` | src/allow.rs:23-32 | Disallowing twice equals disallowing once |
| `Allowance.LastWriteWins` | src/allow.rs:20-39 | Of allow and disallow on one token, the later one decides the flag, and the earlier one leaves no trace |
| `Allowance.WritesToDistinctTokensCommute` | src/allow.rs:13-31 | Writes to different tokens commute |
| `Allowance.UnwrittenLookupFails` | src/allow.rs:39 | On an empty registry the lookup fails instead of answering false |
| `Offer.LoadOffer` | src/offer.rs:234-236 | Fails exactly when no record is stored under the key, and otherwise returns it |
| `Offer.WriteOffer` | src/offer.rs:238-240 | After a write, the key holds the new record. Every other key, the registries and the balances are unchanged |
| `Offer.CalculateFee` | src/offer.rs:25-27 | The fee equals floor(amount * rate / 10^D) for a non-negative amount and is rounded toward zero for a negative one. For a non-negative amount it is 0 when amount * rate < 10^D, lies between 0 and amount when rate <= 10^D, and is never negative for a non-negative amount. It succeeds exactly when 10^D and amount * rate fit in `i128`, and otherwise traps with an overflow |
| `Offer.Share` | src/offer.rs:136 | For 0 <= amount <= recv and send >= 0, the payout lies between 0 and send and is the truncated quotient (prop * recv <= amount * send < (prop+1) * recv). Filling all of recv pays out all of send |
| `Offer.Create` | src/offer.rs:31-93 | Checks fail in this order: the key exists, a zero amount, min > recv, the offeror did not authorise, then the fee is missing. On success the record holds exactly the given amounts as ACTIVE, with send > 0. Other keys and the registries are unchanged. Conversely, create succeeds when every check passes, the fee is set and computable, the offeror is not the escrow account, and the offeror holds send + fee of the send token. In the other direction, a create by an offeror other than the escrow account succeeds only if the offeror held send + fee, so a shortfall aborts the call |
| `Offer.CreateMovesFunds` | src/offer.rs:65-76 | A successful create moves `send_amount` of the send token from the offeror into escrow and a non-negative fee in the same token to the fee wallet. No other balance changes |
| `Offer.CreateIgnoresAllowances` | src/offer.rs:42-48 | The outcome of create does not depend on the allowance registry |
| `Offer.Accept` | src/offer.rs:97-172 | Checks fail in this order: the record is missing, the fee is unset, the status is not ACTIVE, amount > recv, amount < min, the acceptor did not authorise. On success, send drops by the payout and recv by the amount, and the status becomes COMPLETE exactly when recv reaches 0. Otherwise the offer stays ACTIVE with min = min(old min, recv). No other record changes. Conversely, accept succeeds when every check passes, the amounts are non-negative, the fee and amount * send fit in `i128`, the acceptor is not the escrow account and holds amount + fee of the receive token, and escrow holds the payout. In the other direction, a successful accept implies that the acceptor, when not the fee wallet, held amount + fee, and that escrow, when no party is the escrow account, held the payout, so a shortfall aborts the call |
| `Offer.Filled` | src/offer.rs:158-167 | After a fill the record keeps its offeror and tokens and holds what is left. It is COMPLETE when nothing is left to receive; otherwise its status is kept and its minimum is lowered to what is left if that is smaller |
| `Offer.AcceptMovesFunds` | src/offer.rs:128-155 | A successful accept moves the fee and `amount` of the receive token to the fee wallet and the offeror. It pays the payout of the send token from escrow to the acceptor. Escrow loses exactly what the record's `send_amount` drops by. No other balance changes |
| `Offer.Update` | src/offer.rs:176-203 | Checks fail in this order: recv == 0, min > recv, the record is missing, the status is not ACTIVE, the offeror did not authorise. On success only `recv_amount` and `min_recv_amount` of that record change. Send amount, tokens, status and all balances stay. Once the checks pass, update always succeeds |
| `Offer.Close` | src/offer.rs:207-230 | Checks fail in this order: the record is missing, the status is not ACTIVE, the offeror did not authorise. The refund succeeds exactly when escrow covers it. On success only that record's status changes, to CANCEL |
| `Offer.CloseMovesFunds` | src/offer.rs:220-224 | A successful close moves the whole remaining `send_amount` from escrow to the offeror and nothing else |
| `Escrow.SoleOfferEscrow` | src/offer.rs:75-90 | Under the escrow invariant, if an ACTIVE offer is the only one selling its token, the contract's balance of that token equals its `send_amount` |
| `Escrow.EscrowCovers` | src/offer.rs:75-90 | Under the escrow invariant, the contract holds at least the remaining `send_amount` of every ACTIVE offer |
| `Escrow.CloseAlwaysFunded` | src/offer.rs:213-227 | Under the escrow invariant, the offeror's close of an ACTIVE offer always succeeds |
| `Escrow.AcceptAlwaysFunded` | src/offer.rs:136-169 | Under the escrow invariant, an admissible fill that the acceptor can pay for and whose arithmetic fits in `i128` always succeeds; escrow always covers the payout |
| `Escrow.CreatePreservesInv` | src/offer.rs:75-90 | Create keeps the escrow invariant |
| `Escrow.AcceptPreservesInv` | src/offer.rs:136-169 | Accept keeps the escrow invariant. A fill that completes the offer pays out all that was left, so a COMPLETE record holds 0 |
| `Escrow.UpdatePreservesInv` | src/offer.rs:198-200 | Update keeps the escrow invariant |
| `Escrow.ClosePreservesInv` | src/offer.rs:220-227 | Close keeps the escrow invariant |
| `Contract.Step` | src/offer.rs:23-231 | Dispatches each public entry point. Fee and allowance calls never touch an offer or a balance, offer calls never touch the registries, no call forgets an offer, `fee_init` and `fee_set` succeed on opposite slot states, and `allow`/`disallow` always succeed |
| `Contract.Apply` | src/offer.rs:140-143 | A call that aborts leaves the whole ledger unchanged, which is the host's rollback |
| `Contract.Run` | src/offer.rs:23-231 | Over any sequence of calls, the escrow address and `FEE_DECIMALS` stay fixed and no offer is forgotten |
| `Contract.StepPreservesInv` | src/offer.rs:31-230 | Any admissible call keeps the escrow invariant |
| `Contract.RunPreservesInv` | src/offer.rs:31-230 | The escrow invariant holds after any sequence of admissible calls |
| `Contract.RunNoOverdraft` | src/offer.rs:140-143 | Starting from non-negative balances, no sequence of calls leaves any holder with a negative balance: a transfer the sender cannot cover aborts the call |
| `Contract.StepKeepsSettled` | src/offer.rs:111-217 | A call never changes a COMPLETE or CANCEL record |
| `Contract.RunKeepsSettled` | src/offer.rs:111-217 | COMPLETE and CANCEL are absorbing over any sequence of calls |
| `Contract.StepSendNonIncreasing` | src/offer.rs:158 | A call never removes a record and never raises its `send_amount` |
| `Contract.RunSendNonIncreasing` | src/offer.rs:158-199 | Over any admissible sequence, a record persists and its `send_amount` never rises |
| `Contract.FillsConserve` | src/offer.rs:136-167 | Over successive fills, `recv_amount` drops by exactly the total accepted. Escrow pays out exactly what `send_amount` drops by, and never more than the starting `send_amount` |
| `Scenario.ScenarioCreate` | src/test.rs:92-106 | Creating 500/50/10 escrows 500 and leaves the offeror 500 |
| `Scenario.ScenarioBelowMinimum` | src/test.rs:109-111 | Accepting 9 fails as below the minimum |
| `Scenario.ScenarioFirstFill` | src/test.rs:113-144 | Accepting 10 pays 100, leaving escrow 400 and balances as the test asserts |
| `Scenario.ScenarioUpdate` | src/test.rs:147-148 | Re-pricing to 80/20 keeps `send_amount` 400 and moves no funds |
| `Scenario.ScenarioSecondFill` | src/test.rs:166-175 | Accepting 40 pays 200, leaving escrow 200 and balances as the test asserts |
| `Scenario.ScenarioClose` | src/test.rs:178-179 | Closing refunds 200 and cancels, and a second close fails |
| `Scenario.ScenarioComplete` | src/offer.rs:161-164 | Accepting the last 40 pays 200, completes the offer at 0/0, and a later fill fails |
| `Scenario.ScenarioTruncatedFee` | src/offer.rs:25-27 | At 0.25%, the fee on 500 is 1 and the fee on 10 is 0 |

## Left out

- Authorisation: `require_auth` is a membership test on the call's `signers`. The host's authorisation trees and the test's `e.auths()` assertions are not modelled.
- `log!` calls and the event comments: they have no effect on state.
- The token contracts: only `transfer` is modelled. Balances are unbounded integers, so a token's own `i128` overflow on credit is not modelled.
- `src/lib.rs`: it dispatches to functions and `BytesN<32>` offer ids that do not exist in `src/offer.rs`. `Contract.Step` plays its role for the operations that do exist.
- Storage persistence, time-to-live, serialisation and the `DataKey` encoding: every storage partition is an in-memory map or slot.
- The value of `FEE_DECIMALS`: `storage_types` is not part of this model, so the constant is a parameter.
- The allowance registry is a separate `#[contract]` in the source. Here its map sits in the same ledger, since no modelled operation reads it across contracts.
- Concurrency: the host serialises calls. The only thing left to model is that an aborted call changes nothing (`Contract.Apply`).
- Overflow behaviour without overflow checks (wrap-around in `-=` or `i128::pow`): the model assumes the checked build.
- Escrow.Inv: it is stated as an equality for a closed world, where only the modelled calls move tokens. On a live network anyone can transfer tokens to the contract's address, which makes the contract hold more than its records say; the facts drawn from the invariant (`Escrow.EscrowCovers`, `Escrow.CloseAlwaysFunded`, `Escrow.AcceptAlwaysFunded`) need only that it holds at least as much. It also assumes the escrow account never signs a call and is never made the fee wallet (`Contract.Admissible`).
- Create: its success direction is stated for an offeror other than the escrow account; when the two coincide, the transfers into escrow move nothing.
- Accept: its success direction is stated for non-negative amounts and an acceptor other than the escrow account; negative amounts always fail at a transfer, and an escrow account that accepts pays itself.
- The unit test `src/test.rs` drives a different contract, `SingleOffer` (src/test.rs:4, 31-32). That contract has no fee registry and no timestamp in its key, and its calls are `accept(acceptor, amount)`, `update(recv, min)` and `close()`. The `Scenario` module replays the test's numbers on this model of `TokenSwap` instead. It sets up a zero fee in advance so that `load_fee` (src/offer.rs:65) succeeds.

=== FILE: allowance.dfy ===
/** The allowance registry: a map from token to a flag, written by
    `allow` / `disallow` and read by `is_allowed`. */
module Allowance {
  import opened Results
  import opened Types

  /** The `Allowance(token)` storage entries. */
  type Allowances = map<Address, bool>

  /** `is_allowed`: the flag last written for `token`. An entry that was
      never written is a failed unwrap, not `false`. */
  function IsAllowed(m: Allowances, token: Address): (r: Result<bool>)
    ensures r.Ok? <==> token in m
    ensures r.Err? ==> r.error == AllowanceMissing
    ensures r.Ok? ==> r.value == m[token]
  {
    if token in m then Ok(m[token]) else Err(AllowanceMissing)
  }

  /** `Allow::allow`: the entry for `token` becomes true; no other entry changes. */
  function Allow(m: Allowances, token: Address): (m': Allowances)
    ensures IsAllowed(m', token) == Ok(true)
    ensures forall t :: t != token ==> IsAllowed(m', t) == IsAllowed(m, t)
  {
    m[token := true]
  }

  /** `Allow::disallow`: the entry for `token` becomes false; no other entry changes. */
  function Disallow(m: Allowances, token: Address): (m': Allowances)
    ensures IsAllowed(m', token) == Ok(false)
    ensures forall t :: t != token ==> IsAllowed(m', t) == IsAllowed(m, t)
  {
    m[token := false]
  }

  lemma AllowIdempotent(m: Allowances, token: Address)
    ensures Allow(Allow(m, token), token) == Allow(m, token)
  {
  }

  lemma DisallowIdempotent(m: Allowances, token: Address)
    ensures Disallow(Disallow(m, token), token) == Disallow(m, token)
  {
  }

  /** The later of two writes to the same token decides its flag, and the
      earlier one leaves no trace. */
  lemma LastWriteWins(m: Allowances, token: Address)
    ensures Disallow(Allow(m, token), token) == Disallow(m, token)
    ensures Allow(Disallow(m, token), token) == Allow(m, token)
    ensures IsAllowed(Disallow(Allow(m, token), token), token) == Ok(false)
    ensures IsAllowed(Allow(Disallow(m, token), token), token) == Ok(true)
  {
  }

  /** Writes to different tokens commute. */
  lemma WritesToDistinctTokensCommute(m: Allowances, a: Address, b: Address)
    requires a != b
    ensures Allow(Disallow(m, b), a) == Disallow(Allow(m, a), b)
  {
  }

  /** A token nobody has written is not reported as disallowed: the lookup fails. */
  lemma UnwrittenLookupFails(token: Address)
    ensures IsAllowed(map[], token) == Err(AllowanceMissing)
  {
  }
}

=== FILE: contract.dfy ===
/** The contract as a whole: every public operation as one call, the host's
    all-or-nothing execution of a call, and properties of call sequences. */
module Contract {
  import opened Results
  import opened Int128
  import opened Types
  import opened Token
  import opened Fee
  import opened Allowance
  import opened Offer
  import opened Escrow

  datatype Op =
    | InitFee(fee: FeeInfo)
    | SetFee(fee: FeeInfo)
    | AllowToken(token: Address)
    | DisallowToken(token: Address)
    | CreateOffer(key: OfferKey, sendAmount: i128, recvAmount: i128, minRecvAmount: i128)
    | AcceptOffer(key: OfferKey, acceptor: Address, amount: i128)
    | UpdateOffer(key: OfferKey, recvAmount: i128, minRecvAmount: i128)
    | CloseOffer(key: OfferKey)

  /** One invocation: the operation and the accounts that authorised it. */
  datatype Call = Call(signers: set<Address>, op: Op)

  /** One call's effect, or the reason it aborted. The fee and allowance
      entry points never touch an offer or a balance and the offer entry
      points never touch the registries; no call forgets an offer, and the
      allowance entry points cannot fail. */
  function Step(s: Ledger, c: Call): (r: Result<Ledger>)
    ensures r.Ok? ==> r.value.contract == s.contract && r.value.feeDecimals == s.feeDecimals
    ensures r.Ok? ==> s.offers.Keys <= r.value.offers.Keys
    ensures (c.op.InitFee? || c.op.SetFee? || c.op.AllowToken? || c.op.DisallowToken?) && r.Ok? ==>
              r.value.offers == s.offers && r.value.balances == s.balances
    ensures (c.op.InitFee? || c.op.SetFee?) ==> (r.Ok? <==> (c.op.InitFee? <==> s.fee.None?))
    ensures (c.op.AllowToken? || c.op.DisallowToken?) ==> r.Ok? && r.value.fee == s.fee
    ensures !(c.op.InitFee? || c.op.SetFee? || c.op.AllowToken? || c.op.DisallowToken?) && r.Ok? ==>
              SameRegistries(s, r.value)
  {
    match c.op
    case InitFee(fee) =>
      var slot :- FeeInit(s.fee, fee);
      Ok(s.(fee := slot))
    case SetFee(fee) =>
      var slot :- FeeSet(s.fee, fee);
      Ok(s.(fee := slot))
    case AllowToken(token) => Ok(s.(allowances := Allow(s.allowances, token)))
    case DisallowToken(token) => Ok(s.(allowances := Disallow(s.allowances, token)))
    case CreateOffer(key, sendAmount, recvAmount, minRecvAmount) =>
      Create(s, c.signers, key, sendAmount, recvAmount, minRecvAmount)
    case AcceptOffer(key, acceptor, amount) => Accept(s, c.signers, key, acceptor, amount)
    case UpdateOffer(key, recvAmount, minRecvAmount) => Update(s, c.signers, key, recvAmount, minRecvAmount)
    case CloseOffer(key) => Close(s, c.signers, key)
  }

  /** The host runs a call to completion or rolls all of it back. */
  function Apply(s: Ledger, c: Call): (s': Ledger)
    ensures s'.contract == s.contract && s'.feeDecimals == s.feeDecimals
    ensures s.offers.Keys <= s'.offers.Keys
    ensures Step(s, c).Err? ==> s' == s
  {
    match Step(s, c)
    case Ok(next) => next
    case Err(_) => s
  }

  /** A sequence of calls, each run by the host on what the previous one
      left: the environment stays fixed and no offer is ever forgotten. */
  function Run(s: Ledger, calls: seq<Call>): (s': Ledger)
    ensures s'.contract == s.contract && s'.feeDecimals == s.feeDecimals
    ensures s.offers.Keys <= s'.offers.Keys
    decreases |calls|
  {
    if |calls| == 0 then s else Run(Apply(s, calls[0]), calls[1..])
  }

  /** A call never overdraws an account: every transfer it makes is backed
      by the sender's balance, or the call aborts and rolls back. */
  lemma StepNoOverdraft(s: Ledger, c: Call)
    requires NoOverdraft(s.balances)
    ensures NoOverdraft(Apply(s, c).balances)
  {
    if Step(s, c).Ok? {
      match c.op
      case InitFee(fee) =>
      case SetFee(fee) =>
      case AllowToken(token) =>
      case DisallowToken(token) =>
      case CreateOffer(key, sendAmount, recvAmount, minRecvAmount) =>
      case AcceptOffer(key, acceptor, amount) =>
      case UpdateOffer(key, recvAmount, minRecvAmount) =>
      case CloseOffer(key) =>
    }
  }

  /** No sequence of calls overdraws an account. */
  lemma {:induction false} RunNoOverdraft(s: Ledger, calls: seq<Call>)
    requires NoOverdraft(s.balances)
    ensures NoOverdraft(Run(s, calls).balances)
    decreases |calls|
  {
    if |calls| > 0 {
      StepNoOverdraft(s, calls[0]);
      RunNoOverdraft(Apply(s, calls[0]), calls[1..]);
    }
  }

  /** The escrow account never authorises a call and is never made the fee
      wallet. */
  predicate Admissible(contract: Address, c: Call) {
    && contract !in c.signers
    && (c.op.InitFee? || c.op.SetFee? ==> c.op.fee.feeWallet != contract)
  }

  lemma StepPreservesInv(s: Ledger, c: Call)
    requires Inv(s) && Admissible(s.contract, c)
    ensures Inv(Apply(s, c))
  {
    if Step(s, c).Ok? {
      match c.op
      case InitFee(fee) =>
      case SetFee(fee) =>
      case AllowToken(token) =>
      case DisallowToken(token) =>
      case CreateOffer(key, sendAmount, recvAmount, minRecvAmount) =>
        CreatePreservesInv(s, c.signers, key, sendAmount, recvAmount, minRecvAmount);
      case AcceptOffer(key, acceptor, amount) =>
        AcceptPreservesInv(s, c.signers, key, acceptor, amount);
      case UpdateOffer(key, recvAmount, minRecvAmount) =>
        UpdatePreservesInv(s, c.signers, key, recvAmount, minRecvAmount);
      case CloseOffer(key) =>
        ClosePreservesInv(s, c.signers, key);
    }
  }

  /** The escrow invariant holds after any sequence of admissible calls,
      whether each call succeeds or aborts. */
  lemma {:induction false} RunPreservesInv(s: Ledger, calls: seq<Call>)
    requires Inv(s)
    requires forall i :: 0 <= i < |calls| ==> Admissible(s.contract, calls[i])
    ensures Inv(Run(s, calls))
    decreases |calls|
  {
    if |calls| > 0 {
      StepPreservesInv(s, calls[0]);
      RunPreservesInv(Apply(s, calls[0]), calls[1..]);
    }
  }

  /** A completed or cancelled record is never changed by a call. */
  lemma StepKeepsSettled(s: Ledger, c: Call, k: OfferKey)
    requires k in s.offers && s.offers[k].status != Active
    ensures k in Apply(s, c).offers && Apply(s, c).offers[k] == s.offers[k]
  {
    if Step(s, c).Ok? {
      match c.op
      case InitFee(fee) =>
      case SetFee(fee) =>
      case AllowToken(token) =>
      case DisallowToken(token) =>
      case CreateOffer(key, sendAmount, recvAmount, minRecvAmount) =>
        assert LoadOffer(Apply(s, c), k) == LoadOffer(s, k);
      case AcceptOffer(key, acceptor, amount) =>
        assert LoadOffer(Apply(s, c), k) == LoadOffer(s, k);
      case UpdateOffer(key, recvAmount, minRecvAmount) =>
      case CloseOffer(key) =>
    }
  }

  /** COMPLETE and CANCEL are absorbing: after any sequence of calls the
      record is exactly as it was when it left ACTIVE. */
  lemma {:induction false} RunKeepsSettled(s: Ledger, calls: seq<Call>, k: OfferKey)
    requires k in s.offers && s.offers[k].status != Active
    ensures k in Run(s, calls).offers && Run(s, calls).offers[k] == s.offers[k]
    decreases |calls|
  {
    if |calls| > 0 {
      StepKeepsSettled(s, calls[0], k);
      RunKeepsSettled(Apply(s, calls[0]), calls[1..], k);
    }
  }

  /** A call never removes an offer and never raises its `send_amount`. */
  lemma StepSendNonIncreasing(s: Ledger, c: Call, k: OfferKey)
    requires Inv(s) && k in s.offers
    ensures k in Apply(s, c).offers
    ensures Apply(s, c).offers[k].sendAmount <= s.offers[k].sendAmount
  {
    assert RecordValid(s.contract, k, s.offers[k]);
    if Step(s, c).Ok? {
      match c.op
      case InitFee(fee) =>
      case SetFee(fee) =>
      case AllowToken(token) =>
      case DisallowToken(token) =>
      case CreateOffer(key, sendAmount, recvAmount, minRecvAmount) =>
        assert LoadOffer(Apply(s, c), k) == LoadOffer(s, k);
      case AcceptOffer(key, acceptor, amount) =>
        assert LoadOffer(Apply(s, c), k) == LoadOffer(s, k) || k == key;
      case UpdateOffer(key, recvAmount, minRecvAmount) =>
      case CloseOffer(key) =>
    }
  }

  /** Over any sequence of admissible calls an offer's escrowed
      `send_amount` only goes down. (Its `recv_amount` may go up: `update`
      re-prices it freely.) */
  lemma {:induction false} RunSendNonIncreasing(s: Ledger, calls: seq<Call>, k: OfferKey)
    requires Inv(s) && k in s.offers
    requires forall i :: 0 <= i < |calls| ==> Admissible(s.contract, calls[i])
    ensures k in Run(s, calls).offers
    ensures Run(s, calls).offers[k].sendAmount <= s.offers[k].sendAmount
    decreases |calls|
  {
    if |calls| > 0 {
      StepSendNonIncreasing(s, calls[0], k);
      StepPreservesInv(s, calls[0]);
      RunSendNonIncreasing(Apply(s, calls[0]), calls[1..], k);
    }
  }

  /** One fill of an offer: who accepts and how much of the receive token. */
  datatype Fill = Fill(acceptor: Address, amount: i128)

  /** Fills applied in order to one offer; the first that aborts aborts all. */
  function AcceptAll(s: Ledger, signers: set<Address>, key: OfferKey, fills: seq<Fill>): (r: Result<Ledger>)
    ensures r.Ok? ==> SameRegistries(s, r.value) && r.value.offers.Keys == s.offers.Keys
    ensures r.Ok? && |fills| > 0 ==> key in s.offers
    decreases |fills|
  {
    if |fills| == 0 then Ok(s)
    else
      var next :- Accept(s, signers, key, fills[0].acceptor, fills[0].amount);
      AcceptAll(next, signers, key, fills[1..])
  }

  function TotalAmount(fills: seq<Fill>): int
    decreases |fills|
  {
    if |fills| == 0 then 0 else fills[0].amount + TotalAmount(fills[1..])
  }

  /** Conservation over successive fills of one offer: its `recv_amount`
      drops by exactly the amounts accepted, and escrow pays out exactly
      what its `send_amount` drops by, which is never more than the
      `send_amount` it started with. */
  lemma {:induction false} FillsConserve(s: Ledger, signers: set<Address>, key: OfferKey, fills: seq<Fill>)
    requires Inv(s) && s.contract !in signers && key in s.offers
    requires AcceptAll(s, signers, key, fills).Ok?
    ensures var s' := AcceptAll(s, signers, key, fills).value;
            && Inv(s') && key in s'.offers
            && s.offers[key].recvAmount - s'.offers[key].recvAmount == TotalAmount(fills)
            && Balance(s.balances, key.sendToken, s.contract) - Balance(s'.balances, key.sendToken, s.contract)
               == s.offers[key].sendAmount - s'.offers[key].sendAmount
            && 0 <= s.offers[key].sendAmount - s'.offers[key].sendAmount <= s.offers[key].sendAmount
    decreases |fills|
  {
    assert RecordValid(s.contract, key, s.offers[key]);
    if |fills| > 0 {
      var f := fills[0];
      var next := Accept(s, signers, key, f.acceptor, f.amount).value;
      AcceptMovesFunds(s, signers, key, f.acceptor, f.amount);
      AcceptPreservesInv(s, signers, key, f.acceptor, f.amount);
      assert RecordValid(next.contract, key, next.offers[key]);
      FillsConserve(next, signers, key, fills[1..]);
    }
  }
}

=== FILE: escrow.dfy ===
/** The escrow invariant of the offer ledger: for every token, the
    contract's own balance equals the sum of `send_amount` over the active
    offers that sell that token, and every stored record is consistent with
    its key and its status. */
module Escrow {
  import opened Results
  import opened Int128
  import opened Types
  import opened Token
  import opened Offer

  /** What one record keeps in escrow of `token`. */
  function Held(o: OfferInfo, token: Address): int {
    if o.status == Active && o.sendToken == token then o.sendAmount else 0
  }

  /** The sum of `Held` over the records stored under `keys`. */
  ghost function EscrowedOver(offers: map<OfferKey, OfferInfo>, keys: set<OfferKey>, token: Address): int
    requires keys <= offers.Keys
    decreases keys
  {
    if keys == {} then 0
    else
      var k :| k in keys;
      Held(offers[k], token) + EscrowedOver(offers, keys - {k}, token)
  }

  /** What all stored offers together keep in escrow of `token`. */
  ghost function Escrowed(offers: map<OfferKey, OfferInfo>, token: Address): int {
    EscrowedOver(offers, offers.Keys, token)
  }

  /** The sum does not depend on the order keys are taken in: any one key
      can be split off. */
  lemma {:induction false} EscrowedOverSplit(offers: map<OfferKey, OfferInfo>, keys: set<OfferKey>,
                                             token: Address, k: OfferKey)
    requires keys <= offers.Keys && k in keys
    ensures EscrowedOver(offers, keys, token) == Held(offers[k], token) + EscrowedOver(offers, keys - {k}, token)
    decreases keys
  {
    var j :| j in keys && EscrowedOver(offers, keys, token) ==
                          Held(offers[j], token) + EscrowedOver(offers, keys - {j}, token);
    if j != k {
      EscrowedOverSplit(offers, keys - {j}, token, k);
      EscrowedOverSplit(offers, keys - {k}, token, j);
      assert keys - {j} - {k} == keys - {k} - {j};
    }
  }

  /** The sum only reads the records under `keys`. */
  lemma {:induction false} EscrowedOverFrame(m: map<OfferKey, OfferInfo>, m': map<OfferKey, OfferInfo>,
                                             keys: set<OfferKey>, token: Address)
    requires keys <= m.Keys && keys <= m'.Keys
    requires forall k :: k in keys ==> m[k] == m'[k]
    ensures EscrowedOver(m, keys, token) == EscrowedOver(m', keys, token)
    decreases keys
  {
    if keys != {} {
      var k :| k in keys;
      EscrowedOverSplit(m, keys, token, k);
      EscrowedOverSplit(m', keys, token, k);
      EscrowedOverFrame(m, m', keys - {k}, token);
    }
  }

  /** Storing `o` under `k` changes the escrow total by what `o` holds
      minus what the record it replaces held. */
  lemma EscrowedUpdate(offers: map<OfferKey, OfferInfo>, k: OfferKey, o: OfferInfo, token: Address)
    ensures Escrowed(offers[k := o], token) ==
            Escrowed(offers, token) - (if k in offers then Held(offers[k], token) else 0) + Held(o, token)
  {
    var m' := offers[k := o];
    var rest := offers.Keys - {k};
    assert m'.Keys - {k} == rest;
    EscrowedOverSplit(m', m'.Keys, token, k);
    EscrowedOverFrame(offers, m', rest, token);
    if k in offers {
      EscrowedOverSplit(offers, offers.Keys, token, k);
    } else {
      assert offers.Keys - {k} == offers.Keys;
    }
  }

  /** A record consistent with its key and its status: its `send_amount` is
      never negative; an active offer has a non-zero `recv_amount` and its
      minimum does not exceed what it asks for; a completed offer has
      nothing left on either side; the offeror is never the escrow account. */
  ghost predicate RecordValid(contract: Address, k: OfferKey, o: OfferInfo) {
    && o.offeror == k.offeror && o.sendToken == k.sendToken && o.recvToken == k.recvToken
    && o.offeror != contract
    && 0 <= o.sendAmount
    && (o.status == Active ==> o.recvAmount != 0 && o.minRecvAmount <= o.recvAmount)
    && (o.status == Complete ==> o.sendAmount == 0 && o.recvAmount == 0)
  }

  ghost predicate Inv(s: Ledger) {
    && (s.fee.Some? ==> s.fee.value.feeWallet != s.contract)
    && (forall k :: k in s.offers ==> RecordValid(s.contract, k, s.offers[k]))
    && (forall t :: Balance(s.balances, t, s.contract) == Escrowed(s.offers, t))
  }

  /** A fresh deployment: no offers, and the contract holds no tokens. */
  lemma InitialInv(contract: Address, decimals: nat, balances: Balances)
    requires forall t :: Balance(balances, t, contract) == 0
    ensures Inv(Ledger(contract, decimals, None, map[], map[], balances))
  {
    var s := Ledger(contract, decimals, None, map[], map[], balances);
    forall t
      ensures Balance(s.balances, t, s.contract) == Escrowed(s.offers, t)
    {
      assert s.offers.Keys == {};
    }
  }

  /** While the invariant holds, an active offer whose send token no other
      active offer sells is backed by exactly its `send_amount`. */
  lemma SoleOfferEscrow(s: Ledger, key: OfferKey)
    requires Inv(s)
    requires key in s.offers && s.offers[key].status == Active
    requires forall k :: k in s.offers && k != key ==> Held(s.offers[k], key.sendToken) == 0
    ensures Balance(s.balances, key.sendToken, s.contract) == s.offers[key].sendAmount
  {
    var t := key.sendToken;
    EscrowedOverSplit(s.offers, s.offers.Keys, t, key);
    NothingHeld(s.offers, s.offers.Keys - {key}, t);
  }

  lemma {:induction false} NothingHeld(offers: map<OfferKey, OfferInfo>, keys: set<OfferKey>, token: Address)
    requires keys <= offers.Keys
    requires forall k :: k in keys ==> Held(offers[k], token) == 0
    ensures EscrowedOver(offers, keys, token) == 0
    decreases keys
  {
    if keys != {} {
      var k :| k in keys;
      EscrowedOverSplit(offers, keys, token, k);
      NothingHeld(offers, keys - {k}, token);
    }
  }

  /** No record holds a negative amount, so the escrow total over a set of
      keys covers what any one of them holds. */
  lemma {:induction false} EscrowedOverCovers(offers: map<OfferKey, OfferInfo>, keys: set<OfferKey>,
                                              token: Address, k: OfferKey)
    requires keys <= offers.Keys && k in keys
    requires forall j :: j in keys ==> Held(offers[j], token) >= 0
    ensures EscrowedOver(offers, keys, token) >= Held(offers[k], token)
  {
    EscrowedOverSplit(offers, keys, token, k);
    EscrowedOverNonNegative(offers, keys - {k}, token);
  }

  lemma {:induction false} EscrowedOverNonNegative(offers: map<OfferKey, OfferInfo>, keys: set<OfferKey>,
                                                   token: Address)
    requires keys <= offers.Keys
    requires forall j :: j in keys ==> Held(offers[j], token) >= 0
    ensures EscrowedOver(offers, keys, token) >= 0
    decreases keys
  {
    if keys != {} {
      var k :| k in keys;
      EscrowedOverSplit(offers, keys, token, k);
      EscrowedOverNonNegative(offers, keys - {k}, token);
    }
  }

  /** While the invariant holds, the escrow account owns at least the
      remaining `send_amount` of every active offer. */
  lemma EscrowCovers(s: Ledger, key: OfferKey)
    requires Inv(s)
    requires key in s.offers && s.offers[key].status == Active
    ensures 0 <= s.offers[key].sendAmount <= Balance(s.balances, s.offers[key].sendToken, s.contract)
  {
    var t := s.offers[key].sendToken;
    forall j | j in s.offers.Keys
      ensures Held(s.offers[j], t) >= 0
    {
      assert RecordValid(s.contract, j, s.offers[j]);
    }
    EscrowedOverCovers(s.offers, s.offers.Keys, t, key);
  }

  /** While the invariant holds, `close` of an active offer by its offeror
      never fails: the refund is always in escrow. */
  lemma CloseAlwaysFunded(s: Ledger, signers: set<Address>, key: OfferKey)
    requires Inv(s)
    requires key in s.offers && s.offers[key].status == Active && s.offers[key].offeror in signers
    ensures Close(s, signers, key).Ok?
  {
    EscrowCovers(s, key);
  }

  /** While the invariant holds, the payout of an `accept` never fails for
      want of escrow: an admissible fill that the acceptor can pay for, and
      whose arithmetic stays within `i128`, succeeds. */
  lemma AcceptAlwaysFunded(s: Ledger, signers: set<Address>, key: OfferKey, acceptor: Address, amount: i128)
    requires Inv(s)
    requires key in s.offers && s.fee.Some?
    requires var o := s.offers[key];
             var fee := CalculateFee(s.fee.value, s.feeDecimals, amount);
             && o.status == Active && 0 <= amount && o.minRecvAmount <= amount <= o.recvAmount
             && acceptor in signers && acceptor != s.contract
             && fee.Ok? && InRange(amount * o.sendAmount)
             && amount + fee.value <= Balance(s.balances, o.recvToken, acceptor)
    ensures Accept(s, signers, key, acceptor, amount).Ok?
  {
    var o := s.offers[key];
    assert RecordValid(s.contract, key, o);
    EscrowCovers(s, key);
    assert Share(amount, o.sendAmount, o.recvAmount) <= o.sendAmount;
  }

  /** `create` keeps the invariant: the new record is valid and the escrow
      account received exactly the `send_amount` the record now holds. */
  lemma CreatePreservesInv(s: Ledger, signers: set<Address>, key: OfferKey,
                           sendAmount: i128, recvAmount: i128, minRecvAmount: i128)
    requires Inv(s) && s.contract !in signers
    requires Create(s, signers, key, sendAmount, recvAmount, minRecvAmount).Ok?
    ensures Inv(Create(s, signers, key, sendAmount, recvAmount, minRecvAmount).value)
  {
    var s' := Create(s, signers, key, sendAmount, recvAmount, minRecvAmount).value;
    var o := OfferInfo(key.offeror, key.sendToken, key.recvToken, sendAmount, recvAmount, minRecvAmount, Active);
    CreateMovesFunds(s, signers, key, sendAmount, recvAmount, minRecvAmount);
    assert s'.offers == s.offers[key := o] by {
      assert forall k :: k != key ==> LoadOffer(s', k) == LoadOffer(s, k);
    }
    forall t
      ensures Balance(s'.balances, t, s'.contract) == Escrowed(s'.offers, t)
    {
      EscrowedUpdate(s.offers, key, o, t);
    }
  }

  /** `accept` keeps the invariant: the payout leaves escrow and the
      record's `send_amount` by the same amount, and a completing fill pays
      out everything that was left. */
  lemma AcceptPreservesInv(s: Ledger, signers: set<Address>, key: OfferKey, acceptor: Address, amount: i128)
    requires Inv(s) && s.contract !in signers
    requires Accept(s, signers, key, acceptor, amount).Ok?
    ensures Inv(Accept(s, signers, key, acceptor, amount).value)
  {
    var s' := Accept(s, signers, key, acceptor, amount).value;
    var o := s.offers[key];
    var o' := s'.offers[key];
    AcceptMovesFunds(s, signers, key, acceptor, amount);
    assert RecordValid(s.contract, key, o);
    var prop := Share(amount, o.sendAmount, o.recvAmount);
    assert 0 <= prop <= o.sendAmount;
    assert s'.offers == s.offers[key := o'] by {
      assert forall k :: k != key ==> LoadOffer(s', k) == LoadOffer(s, k);
    }
    assert RecordValid(s'.contract, key, o');
    forall t
      ensures Balance(s'.balances, t, s'.contract) == Escrowed(s'.offers, t)
    {
      EscrowedUpdate(s.offers, key, o', t);
    }
  }

  /** `update` keeps the invariant: nothing escrowed moves. */
  lemma UpdatePreservesInv(s: Ledger, signers: set<Address>, key: OfferKey, recvAmount: i128, minRecvAmount: i128)
    requires Inv(s)
    requires Update(s, signers, key, recvAmount, minRecvAmount).Ok?
    ensures Inv(Update(s, signers, key, recvAmount, minRecvAmount).value)
  {
    var s' := Update(s, signers, key, recvAmount, minRecvAmount).value;
    var o' := s'.offers[key];
    forall t
      ensures Balance(s'.balances, t, s'.contract) == Escrowed(s'.offers, t)
    {
      EscrowedUpdate(s.offers, key, o', t);
    }
  }

  /** `close` keeps the invariant: the refund leaves escrow exactly when the
      record stops counting as active. */
  lemma ClosePreservesInv(s: Ledger, signers: set<Address>, key: OfferKey)
    requires Inv(s)
    requires Close(s, signers, key).Ok?
    ensures Inv(Close(s, signers, key).value)
  {
    var s' := Close(s, signers, key).value;
    var o' := s'.offers[key];
    CloseMovesFunds(s, signers, key);
    assert RecordValid(s.contract, key, s.offers[key]);
    forall t
      ensures Balance(s'.balances, t, s'.contract) == Escrowed(s'.offers, t)
    {
      EscrowedUpdate(s.offers, key, o', t);
    }
  }
}

=== FILE: fee.dfy ===
/** The fee registry: one optional `FeeInfo` stored under the `FEE` key,
    initialised once and afterwards only overwritten. */
module Fee {
  import opened Results
  import opened Types

  /** The `FEE` storage slot. */
  type FeeSlot = Option<FeeInfo>

  /** `fee_get`: the stored record, or a failed unwrap when the slot is empty. */
  function FeeGet(slot: FeeSlot): (r: Result<FeeInfo>)
    ensures r.Ok? <==> slot.Some?
    ensures r.Ok? ==> slot == Some(r.value)
    ensures r.Err? ==> r.error == FeeMissing
  {
    match slot
    case Some(fee) => Ok(fee)
    case None => Err(FeeMissing)
  }

  /** `fee_check`: whether the slot holds a record, that is, whether
      `fee_get` would succeed. */
  function FeeCheck(slot: FeeSlot): (present: bool)
    ensures present <==> FeeGet(slot).Ok?
  {
    slot.Some?
  }

  /** `fee_write`: the whole record is replaced. */
  function FeeWrite(slot: FeeSlot, fee: FeeInfo): (slot': FeeSlot)
    ensures FeeGet(slot') == Ok(fee)
  {
    Some(fee)
  }

  /** `fee_init`: fails once a record exists; otherwise stores `fee`. */
  function FeeInit(slot: FeeSlot, fee: FeeInfo): (r: Result<FeeSlot>)
    ensures r.Ok? <==> !FeeCheck(slot)
    ensures r.Ok? ==> FeeGet(r.value) == Ok(fee)
    ensures r.Err? ==> r.error == FeeAlreadyInitialized
  {
    if FeeCheck(slot) then Err(FeeAlreadyInitialized) else Ok(FeeWrite(slot, fee))
  }

  /** `fee_set`: fails while no record exists; otherwise replaces both
      fields of the record at once. */
  function FeeSet(slot: FeeSlot, fee: FeeInfo): (r: Result<FeeSlot>)
    ensures r.Ok? <==> FeeCheck(slot)
    ensures r.Ok? ==> FeeGet(r.value) == Ok(fee)
    ensures r.Err? ==> r.error == FeeNotInitialized
  {
    if !FeeCheck(slot) then Err(FeeNotInitialized) else Ok(FeeWrite(slot, fee))
  }

  /** Initialisation happens at most once: after a successful `fee_init`,
      every further `fee_init` fails and `fee_set` succeeds. */
  lemma FeeInitOnce(slot: FeeSlot, fee: FeeInfo, other: FeeInfo)
    requires FeeInit(slot, fee).Ok?
    ensures FeeInit(FeeInit(slot, fee).value, other) == Err(FeeAlreadyInitialized)
    ensures FeeSet(FeeInit(slot, fee).value, other).Ok?
    ensures FeeGet(FeeSet(FeeInit(slot, fee).value, other).value) == Ok(other)
  {
  }

  /** `fee_init` and `fee_set` partition the slot's states: exactly one of
      them succeeds on any slot. */
  lemma InitOrSet(slot: FeeSlot, fee: FeeInfo)
    ensures FeeInit(slot, fee).Ok? != FeeSet(slot, fee).Ok?
  {
  }
}

=== FILE: int128.dfy ===
/** Rust's `i128` on unbounded integers: the range, truncating division and
    the checked operations the contract relies on. With overflow checks on,
    every out-of-range result traps; here it is `Err(Overflow)`. */
module Int128 {
  import opened Results

  const MIN: int := -0x8000_0000_0000_0000_0000_0000_0000_0000
  const MAX: int := 0x7fff_ffff_ffff_ffff_ffff_ffff_ffff_ffff

  predicate InRange(x: int) {
    MIN <= x <= MAX
  }

  type i128 = x: int | MIN <= x <= MAX

  function Abs(x: int): (r: int)
    ensures r >= 0 && (r == x || r == -x)
  {
    if x < 0 then -x else x
  }

  /** Rust's `/` on signed integers: the quotient rounded toward zero, so the
      remainder `a - q * b` is smaller than `b` in magnitude and never has the
      opposite sign of `a`. (Dafny's own `/` rounds toward minus infinity for
      a negative dividend.) */
  function Quot(a: int, b: int): (q: int)
    requires b != 0
    ensures a >= 0 ==> 0 <= a - q * b < Abs(b)
    ensures a < 0 ==> -Abs(b) < a - q * b <= 0
  {
    if a >= 0 then
      if b > 0 then a / b else -(a / -b)
    else
      if b > 0 then -((-a) / b) else (-a) / (-b)
  }

  /** `10.pow(n)` as a mathematical integer. */
  function Pow10(n: nat): (p: int)
    ensures p >= 1
  {
    if n == 0 then 1 else 10 * Pow10(n - 1)
  }

  lemma {:induction false} Pow10Mono(m: nat, n: nat)
    requires m <= n
    ensures Pow10(m) <= Pow10(n)
    decreases n
  {
    if m < n {
      Pow10Mono(m, n - 1);
    }
  }

  lemma {:induction false} Pow10Add(m: nat, n: nat)
    ensures Pow10(m + n) == Pow10(m) * Pow10(n)
    decreases n
  {
    if n > 0 {
      Pow10Add(m, n - 1);
      assert Pow10(m + n) == 10 * (Pow10(m) * Pow10(n - 1));
    }
  }

  lemma Pow10Large()
    ensures Pow10(38) == 100000000000000000000000000000000000000
    ensures Pow10(39) == 1000000000000000000000000000000000000000
  {
    var ten := Pow10(10);
    assert ten == 10000000000;
    Pow10Add(10, 9);
    assert Pow10(19) == 10000000000000000000;
    Pow10Add(19, 19);
    Pow10Add(19, 20);
    assert Pow10(20) == 10 * Pow10(19);
  }

  /** `10^n` is an `i128` exactly for the first 39 exponents, so the scale
      of `calculate_fee` overflows only when `FEE_DECIMALS` exceeds 38. */
  lemma Pow10Fits(n: nat)
    ensures InRange(Pow10(n)) <==> n <= 38
  {
    if n <= 38 {
      Pow10Mono(n, 38);
      Pow10Large();
    } else {
      Pow10Mono(39, n);
      Pow10Large();
    }
  }

  /** `a.checked_mul(b).unwrap()` and a plain `*` under overflow checks. */
  function CheckedMul(a: i128, b: int): (r: Result<i128>)
    ensures r.Ok? <==> InRange(a * b)
    ensures r.Ok? ==> r.value == a * b
    ensures r.Err? ==> r.error == Overflow
  {
    if InRange(a * b) then Ok(a * b) else Err(Overflow)
  }

  /** A plain `-` under overflow checks. */
  function CheckedSub(a: i128, b: i128): (r: Result<i128>)
    ensures r.Ok? <==> InRange(a - b)
    ensures r.Ok? ==> r.value + b == a
    ensures r.Err? ==> r.error == Overflow
  {
    if InRange(a - b) then Ok(a - b) else Err(Overflow)
  }

  /** Rust's `/` on `i128`: traps on a zero divisor and on `MIN / -1`. */
  function CheckedQuot(a: i128, b: i128): (r: Result<i128>)
    ensures b == 0 ==> r == Err(DivisionByZero)
    ensures b != 0 ==> (r.Ok? <==> InRange(Quot(a, b)))
    ensures r.Ok? ==> b != 0 && r.value == Quot(a, b)
  {
    if b == 0 then Err(DivisionByZero)
    else if InRange(Quot(a, b)) then Ok(Quot(a, b))
    else Err(Overflow)
  }

  /** For a non-negative dividend and positive divisor, truncation and
      Dafny's floor division agree. */
  lemma QuotOfNonNegative(a: int, b: int)
    requires a >= 0 && b > 0
    ensures Quot(a, b) == a / b
  {
  }

  /** Truncation is symmetric in the sign of the dividend. */
  lemma QuotNegate(a: int, b: int)
    requires b != 0
    ensures Quot(-a, b) == -Quot(a, b)
  {
  }

  /** Multiplying both sides by a non-negative factor keeps an inequality. */
  lemma {:induction false} MulMono(x: int, y: int, z: int)
    requires x <= y && z >= 0
    ensures x * z <= y * z
    decreases z
  {
    if z > 0 {
      MulMono(x, y, z - 1);
      assert x * z == x * (z - 1) + x;
      assert y * z == y * (z - 1) + y;
    }
  }

  /** A non-zero multiple of `b` is at least `b` in magnitude. */
  lemma MulSmall(d: int, b: int)
    requires b != 0 && -Abs(b) < d * b < Abs(b)
    ensures d == 0
  {
    if d >= 1 {
      MulMono(1, d, Abs(b));
    } else if d <= -1 {
      MulMono(1, -d, Abs(b));
    }
  }

  /** Dividing an exact multiple gives back the factor. */
  lemma QuotExact(x: int, b: int)
    requires b != 0
    ensures Quot(x * b, b) == x
  {
    var q := Quot(x * b, b);
    assert x * b - q * b == (x - q) * b;
    MulSmall(x - q, b);
  }

  /** For a non-negative dividend and positive divisor the quotient is
      non-negative and bounded by any `c` with `a <= c * b`. */
  lemma QuotBounds(a: int, b: int, c: int)
    requires a >= 0 && b > 0
    ensures 0 <= Quot(a, b)
    ensures a <= c * b ==> Quot(a, b) <= c
  {
    var q := Quot(a, b);
    if q <= -1 {
      MulMono(q, -1, b);
    }
    if a <= c * b && q >= c + 1 {
      MulMono(c + 1, q, b);
    }
  }

  /** Dividing by at least one never grows the magnitude, so a quotient of
      an `i128` by a positive divisor is again an `i128`. */
  lemma QuotShrinks(a: int, b: int)
    requires b >= 1
    ensures Abs(Quot(a, b)) <= Abs(a)
    ensures InRange(a) ==> InRange(Quot(a, b))
  {
    if a >= 0 {
      QuotBounds(a, b, a);
      MulMono(1, b, a);
    } else {
      QuotNegate(-a, b);
      QuotBounds(-a, b, -a);
      MulMono(1, b, -a);
    }
  }
}

=== FILE: offer.dfy ===
/** The offer ledger: `create`, `accept`, `update` and `close` over the
    contract's storage and the token balances it moves.

    Each operation returns the ledger after the call, or the reason the call
    aborted; an aborted call leaves the caller's ledger as it was, which is
    what the host's transaction rollback guarantees. `require_auth(a)` is
    modelled as `a in signers`. */
module Offer {
  import opened Results
  import opened Int128
  import opened Types
  import opened Token
  import opened Fee
  import opened Allowance

  /** The contract's environment: its own address (the escrow account), the
      `FEE_DECIMALS` constant, its storage, and the token balances. */
  datatype Ledger = Ledger(
    contract: Address,
    feeDecimals: nat,
    fee: FeeSlot,
    allowances: Allowances,
    offers: map<OfferKey, OfferInfo>,
    balances: Balances)

  /** Neither the registries nor the environment's constants changed. */
  predicate SameRegistries(s: Ledger, s': Ledger) {
    && s'.contract == s.contract
    && s'.feeDecimals == s.feeDecimals
    && s'.fee == s.fee
    && s'.allowances == s.allowances
  }

  function Min(a: int, b: int): (m: int)
    ensures m <= a && m <= b && (m == a || m == b)
  {
    if a <= b then a else b
  }

  /** `load_offer`: the stored record, or a failed unwrap. */
  function LoadOffer(s: Ledger, key: OfferKey): (r: Result<OfferInfo>)
    ensures r.Ok? <==> key in s.offers
    ensures r.Ok? ==> r.value == s.offers[key]
    ensures r.Err? ==> r.error == OfferMissing
  {
    if key in s.offers then Ok(s.offers[key]) else Err(OfferMissing)
  }

  /** `write_offer`: stores `offer` under `key`; every other key, the
      registries and the balances keep their contents. */
  function WriteOffer(s: Ledger, key: OfferKey, offer: OfferInfo): (s': Ledger)
    ensures LoadOffer(s', key) == Ok(offer)
    ensures forall k :: k != key ==> LoadOffer(s', k) == LoadOffer(s, k)
    ensures SameRegistries(s, s') && s'.balances == s.balances
  {
    s.(offers := s.offers[key := offer])
  }

  /** `calculate_fee`: `amount * rate / 10^FEE_DECIMALS` in `i128`, rounded
      toward zero, so a small enough amount pays no fee at all. */
  function CalculateFee(fee: FeeInfo, decimals: nat, amount: i128): (r: Result<i128>)
    ensures r.Err? ==> r.error == Overflow
    ensures r.Ok? <==> InRange(Pow10(decimals)) && InRange(amount * fee.feeRate)
    ensures r.Ok? && amount >= 0 ==> r.value >= 0
    ensures r.Ok? && amount >= 0 ==> r.value == (amount * fee.feeRate) / Pow10(decimals)
    ensures r.Ok? && amount < 0 ==> r.value == -((-(amount as int) * fee.feeRate) / Pow10(decimals))
    ensures r.Ok? && 0 <= amount && amount * fee.feeRate < Pow10(decimals) ==> r.value == 0
    ensures r.Ok? && 0 <= amount && fee.feeRate <= Pow10(decimals) ==> 0 <= r.value <= amount
  {
    var scale := Pow10(decimals);
    var product := amount * fee.feeRate;
    if !InRange(scale) || !InRange(product) then Err(Overflow)
    else
      FeeBounds(amount, fee.feeRate, scale);
      Ok(Quot(product, scale))
  }

  /** The arithmetic behind `CalculateFee`'s contract. */
  lemma FeeBounds(amount: int, rate: nat, scale: int)
    requires scale >= 1
    ensures amount >= 0 ==> 0 <= Quot(amount * rate, scale)
    ensures amount >= 0 ==> Quot(amount * rate, scale) == (amount * rate) / scale
    ensures amount < 0 ==> Quot(amount * rate, scale) == -((-amount * rate) / scale)
    ensures 0 <= amount && rate <= scale ==> 0 <= Quot(amount * rate, scale) <= amount
    ensures 0 <= amount && amount * rate < scale ==> Quot(amount * rate, scale) == 0
    ensures InRange(amount * rate) ==> InRange(Quot(amount * rate, scale))
  {
    QuotShrinks(amount * rate, scale);
    if amount >= 0 {
      MulMono(0, amount, rate);
      QuotOfNonNegative(amount * rate, scale);
      if rate <= scale {
        MulMono(rate, scale, amount);
      }
      QuotBounds(amount * rate, scale, amount);
      var q := Quot(amount * rate, scale);
      if q >= 1 {
        MulMono(1, q, scale);
      }
    } else {
      MulMono(0, -amount, rate);
      assert amount * rate == -(-amount * rate);
      QuotNegate(-amount * rate, scale);
      QuotOfNonNegative(-amount * rate, scale);
    }
  }

  /** The payout of a fill: `amount * send_amount / recv_amount`, rounded
      toward zero, on the offer's current remaining balances. */
  function Share(amount: int, sendAmount: int, recvAmount: int): (prop: int)
    requires recvAmount != 0
    ensures 0 <= amount <= recvAmount && 0 <= sendAmount ==>
              && 0 <= prop <= sendAmount
              && prop * recvAmount <= amount * sendAmount < (prop + 1) * recvAmount
    ensures amount == recvAmount ==> prop == sendAmount
  {
    ShareBounds(amount, sendAmount, recvAmount);
    Quot(amount * sendAmount, recvAmount)
  }

  lemma ShareBounds(amount: int, sendAmount: int, recvAmount: int)
    requires recvAmount != 0
    ensures 0 <= amount <= recvAmount && 0 <= sendAmount ==>
              var q := Quot(amount * sendAmount, recvAmount);
              && 0 <= q <= sendAmount
              && q * recvAmount <= amount * sendAmount < (q + 1) * recvAmount
    ensures Quot(recvAmount * sendAmount, recvAmount) == sendAmount
  {
    QuotExact(sendAmount, recvAmount);
    assert recvAmount * sendAmount == sendAmount * recvAmount;
    if 0 <= amount <= recvAmount && 0 <= sendAmount {
      MulMono(0, amount, sendAmount);
      MulMono(amount, recvAmount, sendAmount);
      QuotBounds(amount * sendAmount, recvAmount, sendAmount);
      var q := Quot(amount * sendAmount, recvAmount);
      assert (q + 1) * recvAmount == q * recvAmount + recvAmount;
    }
  }

  /** `create`: validates the key and the amounts, takes `send_amount` of
      the send token into escrow plus the fee on it, and stores the offer as
      `Active`. The has-fee and allowed-token guards are not part of it. */
  function Create(s: Ledger, signers: set<Address>, key: OfferKey,
                  sendAmount: i128, recvAmount: i128, minRecvAmount: i128): (r: Result<Ledger>)
    ensures key in s.offers ==> r == Err(OfferExists)
    ensures key !in s.offers && (sendAmount == 0 || recvAmount == 0) ==> r == Err(ZeroAmount)
    ensures key !in s.offers && sendAmount != 0 && recvAmount != 0 && minRecvAmount > recvAmount ==>
              r == Err(MinAboveRecv)
    ensures key !in s.offers && sendAmount != 0 && recvAmount != 0 && minRecvAmount <= recvAmount ==>
              && (key.offeror !in signers ==> r == Err(Unauthorized))
              && (key.offeror in signers && s.fee.None? ==> r == Err(FeeMissing))
    ensures r.Ok? ==>
              && key !in s.offers
              && key.offeror in signers
              && 0 < sendAmount && recvAmount != 0 && minRecvAmount <= recvAmount
              && LoadOffer(r.value, key) == Ok(OfferInfo(key.offeror, key.sendToken, key.recvToken,
                                                       sendAmount, recvAmount, minRecvAmount, Active))
              && (forall k :: k != key ==> LoadOffer(r.value, k) == LoadOffer(s, k))
              && SameRegistries(s, r.value)
    ensures && key !in s.offers && 0 < sendAmount && recvAmount != 0 && minRecvAmount <= recvAmount
            && key.offeror in signers && key.offeror != s.contract && s.fee.Some?
            && CalculateFee(s.fee.value, s.feeDecimals, sendAmount).Ok?
            && sendAmount + CalculateFee(s.fee.value, s.feeDecimals, sendAmount).value
                 <= Balance(s.balances, key.sendToken, key.offeror)
            ==> r.Ok?
    ensures r.Ok? && key.offeror != s.contract ==>
              && s.fee.Some? && CalculateFee(s.fee.value, s.feeDecimals, sendAmount).Ok?
              && sendAmount + CalculateFee(s.fee.value, s.feeDecimals, sendAmount).value
                   <= Balance(s.balances, key.sendToken, key.offeror)
  {
    if key in s.offers then Err(OfferExists)
    else if sendAmount == 0 || recvAmount == 0 then Err(ZeroAmount)
    else if minRecvAmount > recvAmount then Err(MinAboveRecv)
    else if key.offeror !in signers then Err(Unauthorized)
    else
      var fee :- FeeGet(s.fee);
      var feeAmount :- CalculateFee(fee, s.feeDecimals, sendAmount);
      var escrowed :- Transfer(s.balances, key.sendToken, key.offeror, s.contract, sendAmount);
      var paid :- Transfer(escrowed, key.sendToken, key.offeror, fee.feeWallet, feeAmount);
      Ok(WriteOffer(s.(balances := paid), key,
                    OfferInfo(key.offeror, key.sendToken, key.recvToken,
                              sendAmount, recvAmount, minRecvAmount, Active)))
  }

  /** The record an accepted fill leaves behind: the remaining amounts are
      replaced, the offer completes when nothing is left to receive, and
      otherwise its minimum never exceeds what is left. */
  function Filled(offer: OfferInfo, sendLeft: i128, recvLeft: i128): (o: OfferInfo)
    ensures o.offeror == offer.offeror && o.sendToken == offer.sendToken && o.recvToken == offer.recvToken
    ensures o.sendAmount == sendLeft && o.recvAmount == recvLeft
    ensures recvLeft == 0 ==> o.status == Complete && o.minRecvAmount == offer.minRecvAmount
    ensures recvLeft != 0 ==> o.status == offer.status && o.minRecvAmount == Min(offer.minRecvAmount, recvLeft)
  {
    var drawn := offer.(sendAmount := sendLeft, recvAmount := recvLeft);
    if recvLeft == 0 then drawn.(status := Complete)
    else if recvLeft < offer.minRecvAmount then drawn.(minRecvAmount := recvLeft)
    else drawn
  }

  /** `accept`: a partial fill. The acceptor pays the fee and `amount` of
      the receive token, and is paid `Share(amount, send, recv)` of the
      send token out of escrow; the offer completes exactly when nothing is
      left to receive, and otherwise its minimum is clamped to what is left. */
  function Accept(s: Ledger, signers: set<Address>, key: OfferKey, acceptor: Address, amount: i128): (r: Result<Ledger>)
    ensures key !in s.offers ==> r == Err(OfferMissing)
    ensures key in s.offers ==>
              var o := s.offers[key];
              && (s.fee.None? ==> r == Err(FeeNotSet))
              && (s.fee.Some? && o.status != Active ==> r == Err(NotActive))
              && (s.fee.Some? && o.status == Active && o.recvAmount < amount ==> r == Err(AmountAboveRecv))
              && (s.fee.Some? && o.status == Active && amount <= o.recvAmount && amount < o.minRecvAmount ==>
                    r == Err(AmountBelowMin))
              && ((s.fee.Some? && o.status == Active && o.minRecvAmount <= amount <= o.recvAmount
                   && acceptor !in signers) ==> r == Err(Unauthorized))
    ensures r.Ok? ==>
              && key in s.offers && key in r.value.offers
              && var o := s.offers[key];
                 var o' := r.value.offers[key];
                 && o.status == Active
                 && 0 <= amount && o.minRecvAmount <= amount <= o.recvAmount
                 && acceptor in signers
                 && o.recvAmount != 0
                 && o'.offeror == o.offeror && o'.sendToken == o.sendToken && o'.recvToken == o.recvToken
                 && o'.sendAmount == o.sendAmount - Share(amount, o.sendAmount, o.recvAmount)
                 && o'.recvAmount == o.recvAmount - amount
                 && (o'.status == Complete <==> o'.recvAmount == 0)
                 && (o'.status != Complete ==>
                       o'.status == Active && o'.minRecvAmount == Min(o.minRecvAmount, o'.recvAmount))
    ensures r.Ok? ==> (forall k :: k != key ==> LoadOffer(r.value, k) == LoadOffer(s, k)) && SameRegistries(s, r.value)
    ensures key in s.offers && s.fee.Some? ==>
              var o := s.offers[key];
              var fee := CalculateFee(s.fee.value, s.feeDecimals, amount);
              (&& o.status == Active && 0 <= amount && o.minRecvAmount <= amount <= o.recvAmount
               && o.recvAmount != 0 && 0 <= o.sendAmount
               && acceptor in signers && acceptor != s.contract
               && fee.Ok? && InRange(amount * o.sendAmount)
               && amount + fee.value <= Balance(s.balances, o.recvToken, acceptor)
               && Share(amount, o.sendAmount, o.recvAmount) <= Balance(s.balances, o.sendToken, s.contract))
              ==> r.Ok?
    ensures r.Ok? ==>
              && key in s.offers && s.fee.Some? && s.offers[key].recvAmount != 0
              && var o := s.offers[key];
                 var wallet := s.fee.value.feeWallet;
                 var fee := CalculateFee(s.fee.value, s.feeDecimals, amount);
                 && fee.Ok?
                 && (acceptor != wallet ==> amount + fee.value <= Balance(s.balances, o.recvToken, acceptor))
                 && (acceptor != s.contract && wallet != s.contract && o.offeror != s.contract ==>
                       Share(amount, o.sendAmount, o.recvAmount) <= Balance(s.balances, o.sendToken, s.contract))
  {
    var offer :- LoadOffer(s, key);
    if !FeeCheck(s.fee) then Err(FeeNotSet)
    else if offer.status != Active then Err(NotActive)
    else if offer.recvAmount < amount then Err(AmountAboveRecv)
    else if amount < offer.minRecvAmount then Err(AmountBelowMin)
    else if acceptor !in signers then Err(Unauthorized)
    else
      var fee := s.fee.value;
      var feeAmount :- CalculateFee(fee, s.feeDecimals, amount);
      var product :- CheckedMul(amount, offer.sendAmount);
      var prop :- CheckedQuot(product, offer.recvAmount);
      var feePaid :- Transfer(s.balances, offer.recvToken, acceptor, fee.feeWallet, feeAmount);
      var recvPaid :- Transfer(feePaid, offer.recvToken, acceptor, offer.offeror, amount);
      var released :- Transfer(recvPaid, offer.sendToken, s.contract, acceptor, prop);
      var sendLeft :- CheckedSub(offer.sendAmount, prop);
      // 0 <= amount <= recv_amount once the transfer went through: no overflow
      var recvLeft := CheckedSub(offer.recvAmount, amount).value;
      Ok(WriteOffer(s.(balances := released), key, Filled(offer, sendLeft, recvLeft)))
  }

  /** `update`: re-prices what is left to receive. Only `recv_amount` and
      `min_recv_amount` change; the escrowed `send_amount`, the tokens, the
      status and every balance stay as they were. */
  function Update(s: Ledger, signers: set<Address>, key: OfferKey,
                  recvAmount: i128, minRecvAmount: i128): (r: Result<Ledger>)
    ensures recvAmount == 0 ==> r == Err(ZeroAmount)
    ensures recvAmount != 0 && minRecvAmount > recvAmount ==> r == Err(MinAboveRecv)
    ensures recvAmount != 0 && minRecvAmount <= recvAmount ==>
              && (key !in s.offers ==> r == Err(OfferMissing))
              && (key in s.offers && s.offers[key].status != Active ==> r == Err(NotActive))
              && (key in s.offers && s.offers[key].status == Active && s.offers[key].offeror !in signers ==>
                    r == Err(Unauthorized))
    ensures r.Ok? ==>
              && key in s.offers && s.offers[key].status == Active
              && s.offers[key].offeror in signers
              && recvAmount != 0 && minRecvAmount <= recvAmount
              && r.value.balances == s.balances && SameRegistries(s, r.value)
              && r.value.offers == s.offers[key := s.offers[key].(recvAmount := recvAmount,
                                                                  minRecvAmount := minRecvAmount)]
    ensures && recvAmount != 0 && minRecvAmount <= recvAmount
            && key in s.offers && s.offers[key].status == Active && s.offers[key].offeror in signers
            ==> r.Ok?
  {
    if recvAmount == 0 then Err(ZeroAmount)
    else if minRecvAmount > recvAmount then Err(MinAboveRecv)
    else
      var offer :- LoadOffer(s, key);
      if offer.status != Active then Err(NotActive)
      else if offer.offeror !in signers then Err(Unauthorized)
      else Ok(WriteOffer(s, key, offer.(recvAmount := recvAmount, minRecvAmount := minRecvAmount)))
  }

  /** `close`: cancels an active offer and hands the whole remaining
      `send_amount` back from escrow to the offeror. */
  function Close(s: Ledger, signers: set<Address>, key: OfferKey): (r: Result<Ledger>)
    ensures key !in s.offers ==> r == Err(OfferMissing)
    ensures key in s.offers && s.offers[key].status != Active ==> r == Err(NotActive)
    ensures key in s.offers && s.offers[key].status == Active && s.offers[key].offeror !in signers ==>
              r == Err(Unauthorized)
    ensures key in s.offers && s.offers[key].status == Active && s.offers[key].offeror in signers ==>
              (r.Ok? <==> 0 <= s.offers[key].sendAmount <= Balance(s.balances, s.offers[key].sendToken, s.contract))
    ensures r.Ok? ==>
              && key in s.offers && s.offers[key].status == Active
              && r.value.offers == s.offers[key := s.offers[key].(status := Cancel)]
              && SameRegistries(s, r.value)
  {
    var offer :- LoadOffer(s, key);
    if offer.status != Active then Err(NotActive)
    else if offer.offeror !in signers then Err(Unauthorized)
    else
      var refunded :- Transfer(s.balances, offer.sendToken, s.contract, offer.offeror, offer.sendAmount);
      Ok(WriteOffer(s.(balances := refunded), key, offer.(status := Cancel)))
  }

  /** The funds a successful `create` moves: `send_amount` of the send
      token from the offeror into escrow and the fee on it, in the same
      token, from the offeror to the fee wallet. */
  lemma CreateMovesFunds(s: Ledger, signers: set<Address>, key: OfferKey,
                         sendAmount: i128, recvAmount: i128, minRecvAmount: i128)
    requires Create(s, signers, key, sendAmount, recvAmount, minRecvAmount).Ok?
    ensures s.fee.Some? && CalculateFee(s.fee.value, s.feeDecimals, sendAmount).Ok?
    ensures var b := s.balances;
            var b' := Create(s, signers, key, sendAmount, recvAmount, minRecvAmount).value.balances;
            var wallet := s.fee.value.feeWallet;
            var feeAmount := CalculateFee(s.fee.value, s.feeDecimals, sendAmount).value;
            && 0 <= feeAmount
            && (key.offeror != s.contract && wallet != s.contract ==>
                  forall t :: Balance(b', t, s.contract) ==
                                Balance(b, t, s.contract) + (if t == key.sendToken then sendAmount else 0))
            && (key.offeror != s.contract && wallet != s.contract && wallet != key.offeror ==>
                  && Balance(b', key.sendToken, key.offeror) ==
                       Balance(b, key.sendToken, key.offeror) - sendAmount - feeAmount
                  && Balance(b', key.sendToken, wallet) == Balance(b, key.sendToken, wallet) + feeAmount
                  && forall t, h :: (t != key.sendToken || (h != key.offeror && h != s.contract && h != wallet)) ==>
                                      Balance(b', t, h) == Balance(b, t, h))
  {
  }

  /** The funds a successful `accept` moves: the fee and `amount` of the
      receive token from the acceptor to the fee wallet and the offeror,
      and the payout of the send token from escrow to the acceptor. The
      escrow account pays exactly what the record's `send_amount` drops by,
      and no other balance changes. */
  lemma AcceptMovesFunds(s: Ledger, signers: set<Address>, key: OfferKey, acceptor: Address, amount: i128)
    requires Accept(s, signers, key, acceptor, amount).Ok?
    ensures key in s.offers && s.fee.Some? && CalculateFee(s.fee.value, s.feeDecimals, amount).Ok?
    ensures var s' := Accept(s, signers, key, acceptor, amount).value;
            var o := s.offers[key];
            var prop := o.sendAmount - s'.offers[key].sendAmount;
            var wallet := s.fee.value.feeWallet;
            var feeAmount := CalculateFee(s.fee.value, s.feeDecimals, amount).value;
            && 0 <= feeAmount
            && (acceptor != s.contract && wallet != s.contract && o.offeror != s.contract ==>
                  forall t :: Balance(s'.balances, t, s.contract) ==
                                Balance(s.balances, t, s.contract) - (if t == o.sendToken then prop else 0))
            && (o.sendToken != o.recvToken
                && acceptor != s.contract && wallet != s.contract && o.offeror != s.contract
                && acceptor != o.offeror && acceptor != wallet && wallet != o.offeror ==>
                  && Balance(s'.balances, o.sendToken, acceptor) == Balance(s.balances, o.sendToken, acceptor) + prop
                  && Balance(s'.balances, o.recvToken, acceptor) ==
                       Balance(s.balances, o.recvToken, acceptor) - amount - feeAmount
                  && Balance(s'.balances, o.recvToken, o.offeror) == Balance(s.balances, o.recvToken, o.offeror) + amount
                  && Balance(s'.balances, o.recvToken, wallet) == Balance(s.balances, o.recvToken, wallet) + feeAmount)
            && forall t, h :: && (t != o.recvToken || (h != acceptor && h != wallet && h != o.offeror))
                              && (t != o.sendToken || (h != s.contract && h != acceptor)) ==>
                                   Balance(s'.balances, t, h) == Balance(s.balances, t, h)
  {
  }

  /** The funds a successful `close` moves: the whole remaining
      `send_amount` from escrow back to the offeror, and nothing else. */
  lemma CloseMovesFunds(s: Ledger, signers: set<Address>, key: OfferKey)
    requires Close(s, signers, key).Ok?
    ensures key in s.offers
    ensures var b := s.balances;
            var b' := Close(s, signers, key).value.balances;
            var o := s.offers[key];
            o.offeror != s.contract ==>
              && Balance(b', o.sendToken, s.contract) == Balance(b, o.sendToken, s.contract) - o.sendAmount
              && Balance(b', o.sendToken, o.offeror) == Balance(b, o.sendToken, o.offeror) + o.sendAmount
              && forall t, h :: (t != o.sendToken || (h != s.contract && h != o.offeror)) ==>
                                  Balance(b', t, h) == Balance(b, t, h)
  {
  }

  /** `create` does not consult the allowance registry: whatever the
      allowances are, it succeeds or fails in the same way and moves the
      same funds. */
  lemma CreateIgnoresAllowances(s: Ledger, other: Allowances, signers: set<Address>, key: OfferKey,
                                sendAmount: i128, recvAmount: i128, minRecvAmount: i128)
    ensures var r := Create(s, signers, key, sendAmount, recvAmount, minRecvAmount);
            var r' := Create(s.(allowances := other), signers, key, sendAmount, recvAmount, minRecvAmount);
            && (r.Err? <==> r'.Err?)
            && (r.Err? ==> r'.error == r.error)
            && (r.Ok? ==> r'.value == r.value.(allowances := other))
  {
  }
}

=== FILE: results.dfy ===
/** How a call of the swap contract ends: with a value, or aborted for one
    of the reasons listed in `Error`.

    In the contract an abort is a `panic!` or an `unwrap` of a storage entry
    that is not there, and the host then discards everything the call did.
    Here an abort is an `Err` naming its cause, and `:-` threads it through
    the steps of an operation the way the panic unwinds the Rust call. */
module Results {

  /** An optional storage slot: `None` when the key is absent. */
  datatype Option<+T> = None | Some(value: T)

  /** Why an operation aborted. */
  datatype Error =
    // fee registry
    | FeeAlreadyInitialized   // fee_init on an initialised slot
    | FeeNotInitialized       // fee_set on an empty slot
    | FeeNotSet               // accept's has_fee guard
    | FeeMissing              // unwrap in fee_get / load_fee
    // allowance registry
    | AllowanceMissing        // unwrap in is_allowed
    // offer ledger
    | OfferExists             // create on a key already stored
    | OfferMissing            // unwrap in load_offer
    | ZeroAmount              // a zero send or receive amount
    | MinAboveRecv            // min_recv_amount > recv_amount
    | NotActive               // the offer is COMPLETE or CANCEL
    | AmountAboveRecv         // accept of more than the remaining recv_amount
    | AmountBelowMin          // accept of less than min_recv_amount
    // host collaborators
    | Unauthorized            // require_auth of an account that did not sign
    | Overflow                // i128 arithmetic out of range
    | DivisionByZero          // i128 division by zero
    | NegativeTransfer        // token transfer of a negative amount
    | InsufficientBalance     // token transfer exceeding the sender's balance

  /** A value or the reason the computation aborted; usable with `:-`. */
  datatype Result<+T> = Ok(value: T) | Err(error: Error) {

    predicate IsFailure() {
      Err?
    }

    function PropagateFailure<U>(): Result<U>
      requires Err?
    {
      Err(error)
    }

    function Extract(): T
      requires Ok?
    {
      value
    }
  }
}

=== FILE: scenario.dfy ===
/** The numeric walk-through of the repository's unit test, replayed on the
    model. The test drives a single-offer contract without a fee registry
    or timestamps; here the same calls go through the swap contract, with a
    fee set beforehand so that `load_fee` succeeds. The walk-through is an
    offer of 500 send tokens for 50 receive tokens with a minimum fill of
    10, filled, re-priced, filled again and closed. The test's balances are
    those of a zero fee rate; a second walk-through shows the truncated fee
    at a rate of 0.25%. */
module Scenario {
  import opened Results
  import opened Types
  import opened Token
  import opened Offer
  import opened Contract

  const EscrowAccount: Address := 0
  const Offeror: Address := 1
  const Acceptor: Address := 2
  const Wallet: Address := 3
  const SendToken: Address := 10
  const RecvToken: Address := 11

  const Key: OfferKey := OfferKey(Offeror, SendToken, RecvToken, 0)

  /** 1000 send tokens minted to the offeror, 100 receive tokens to the acceptor. */
  const Minted: Balances := map[(SendToken, Offeror) := 1000, (RecvToken, Acceptor) := 100]

  function Deployed(rate: u32): Ledger {
    Ledger(EscrowAccount, 4, Some(FeeInfo(rate, Wallet)), map[], map[], Minted)
  }

  const S0: Ledger := Deployed(0)
  const S1: Ledger := Apply(S0, Call({Offeror}, CreateOffer(Key, 500, 50, 10)))
  const S2: Ledger := Apply(S1, Call({Acceptor}, AcceptOffer(Key, Acceptor, 10)))
  const S3: Ledger := Apply(S2, Call({Offeror}, UpdateOffer(Key, 80, 20)))
  const S4: Ledger := Apply(S3, Call({Acceptor}, AcceptOffer(Key, Acceptor, 40)))

  lemma ScenarioCreate()
    ensures Step(S0, Call({Offeror}, CreateOffer(Key, 500, 50, 10))).Ok?
    ensures S1.offers[Key] == OfferInfo(Offeror, SendToken, RecvToken, 500, 50, 10, Active)
    ensures Balance(S1.balances, SendToken, Offeror) == 500
    ensures Balance(S1.balances, SendToken, EscrowAccount) == 500
    ensures Balance(S1.balances, SendToken, Wallet) == 0
  {
  }

  /** Accepting 9 is below the minimum of 10 and aborts. */
  lemma ScenarioBelowMinimum()
    ensures Step(S1, Call({Acceptor}, AcceptOffer(Key, Acceptor, 9))) == Err(AmountBelowMin)
  {
    ScenarioCreate();
  }

  /** Accepting 10 pays 10 * 500 / 50 = 100 out of escrow. */
  lemma ScenarioFirstFill()
    ensures Step(S1, Call({Acceptor}, AcceptOffer(Key, Acceptor, 10))).Ok?
    ensures S2.offers[Key] == OfferInfo(Offeror, SendToken, RecvToken, 400, 40, 10, Active)
    ensures Balance(S2.balances, SendToken, Offeror) == 500
    ensures Balance(S2.balances, SendToken, EscrowAccount) == 400
    ensures Balance(S2.balances, SendToken, Acceptor) == 100
    ensures Balance(S2.balances, RecvToken, Offeror) == 10
    ensures Balance(S2.balances, RecvToken, Acceptor) == 90
    ensures Balance(S2.balances, RecvToken, EscrowAccount) == 0
  {
    ScenarioCreate();
  }

  /** Re-pricing to 80 with a minimum of 20 leaves the 400 in escrow alone. */
  lemma ScenarioUpdate()
    ensures Step(S2, Call({Offeror}, UpdateOffer(Key, 80, 20))).Ok?
    ensures S3.offers[Key] == OfferInfo(Offeror, SendToken, RecvToken, 400, 80, 20, Active)
    ensures S3.balances == S2.balances
  {
    ScenarioFirstFill();
  }

  /** Accepting 40 pays 40 * 400 / 80 = 200 and leaves 40 to receive. */
  lemma ScenarioSecondFill()
    ensures Step(S3, Call({Acceptor}, AcceptOffer(Key, Acceptor, 40))).Ok?
    ensures S4.offers[Key] == OfferInfo(Offeror, SendToken, RecvToken, 200, 40, 20, Active)
    ensures Balance(S4.balances, SendToken, Offeror) == 500
    ensures Balance(S4.balances, SendToken, EscrowAccount) == 200
    ensures Balance(S4.balances, SendToken, Acceptor) == 300
    ensures Balance(S4.balances, RecvToken, Offeror) == 50
    ensures Balance(S4.balances, RecvToken, Acceptor) == 50
    ensures Balance(S4.balances, RecvToken, EscrowAccount) == 0
  {
    ScenarioUpdate();
  }

  /** Closing returns the remaining 200 and cancels; closing again aborts. */
  lemma ScenarioClose()
    ensures Step(S4, Call({Offeror}, CloseOffer(Key))).Ok?
    ensures var s5 := Apply(S4, Call({Offeror}, CloseOffer(Key)));
            && s5.offers[Key].status == Cancel
            && Balance(s5.balances, SendToken, Offeror) == 700
            && Balance(s5.balances, SendToken, EscrowAccount) == 0
            && Step(s5, Call({Offeror}, CloseOffer(Key))) == Err(NotActive)
  {
    ScenarioSecondFill();
  }

  /** Accepting the last 40 instead pays out all 200 and completes the
      offer; any further fill aborts. */
  lemma ScenarioComplete()
    ensures Step(S4, Call({Acceptor}, AcceptOffer(Key, Acceptor, 40))).Ok?
    ensures var s5 := Apply(S4, Call({Acceptor}, AcceptOffer(Key, Acceptor, 40)));
            && s5.offers[Key] == OfferInfo(Offeror, SendToken, RecvToken, 0, 0, 20, Complete)
            && Balance(s5.balances, SendToken, EscrowAccount) == 0
            && Balance(s5.balances, SendToken, Acceptor) == 500
            && Step(s5, Call({Acceptor}, AcceptOffer(Key, Acceptor, 10))) == Err(NotActive)
  {
    ScenarioSecondFill();
  }

  /** At 25 / 10^4 (0.25%) the fee on 500 is 1.25, truncated to 1, and the
      fee on a fill of 10 is 0.25, truncated to nothing. */
  lemma ScenarioTruncatedFee()
    ensures var s1 := Apply(Deployed(25), Call({Offeror}, CreateOffer(Key, 500, 50, 10)));
            && Balance(s1.balances, SendToken, Offeror) == 499
            && Balance(s1.balances, SendToken, Wallet) == 1
            && Balance(s1.balances, SendToken, EscrowAccount) == 500
            && var s2 := Apply(s1, Call({Acceptor}, AcceptOffer(Key, Acceptor, 10)));
               && Balance(s2.balances, RecvToken, Wallet) == 0
               && Balance(s2.balances, RecvToken, Acceptor) == 90
  {
  }
}

=== FILE: token.dfy ===
/** The token contracts the swap calls into, reduced to one balance map.

    Only `transfer` is used. It moves `amount` of `token` from `from` to `to`
    and aborts the whole call on a negative amount or a balance that is too
    small, as the standard token interface does. */
module Token {
  import opened Results
  import opened Types

  /** Every token's balances, keyed by (token, holder); a missing entry is zero. */
  type Balances = map<(Address, Address), int>

  function Balance(b: Balances, token: Address, holder: Address): int {
    if (token, holder) in b then b[(token, holder)] else 0
  }

  /** No holder's balance of any token is negative. */
  ghost predicate NoOverdraft(b: Balances) {
    forall t, h :: Balance(b, t, h) >= 0
  }

  function Transfer(b: Balances, token: Address, from: Address, to: Address, amount: int): (r: Result<Balances>)
    ensures r.Ok? <==> 0 <= amount <= Balance(b, token, from)
    ensures amount < 0 ==> r == Err(NegativeTransfer)
    ensures 0 <= amount && Balance(b, token, from) < amount ==> r == Err(InsufficientBalance)
    ensures r.Ok? && from != to ==>
              && Balance(r.value, token, from) == Balance(b, token, from) - amount
              && Balance(r.value, token, to) == Balance(b, token, to) + amount
    ensures r.Ok? ==> forall t, h :: (t != token || (h != from && h != to)) || from == to ==>
              Balance(r.value, t, h) == Balance(b, t, h)
    ensures r.Ok? && NoOverdraft(b) ==> NoOverdraft(r.value)
  {
    if amount < 0 then Err(NegativeTransfer)
    else if Balance(b, token, from) < amount then Err(InsufficientBalance)
    else
      var debited := b[(token, from) := Balance(b, token, from) - amount];
      Ok(debited[(token, to) := Balance(debited, token, to) + amount])
  }
}

=== FILE: types.dfy ===
/** The records the swap contract keeps in storage. */
module Types {
  import opened Int128

  /** An account or token-contract address; only its identity matters. */
  type Address = nat

  type u32 = x: int | 0 <= x < 0x1_0000_0000
  type u64 = x: int | 0 <= x < 0x1_0000_0000_0000_0000

  /** The fee registry's record: a rate over `10^FEE_DECIMALS` and the
      account every fee is paid to. */
  datatype FeeInfo = FeeInfo(feeRate: u32, feeWallet: Address)

  datatype OfferStatus = Active | Complete | Cancel

  /** The identity of an offer: one offeror may run several offers on the
      same pair as long as their timestamps differ. */
  datatype OfferKey = OfferKey(offeror: Address, sendToken: Address, recvToken: Address, timestamp: u64)

  /** A stored offer. `sendAmount` is what is still escrowed, `recvAmount`
      what is still asked for, and `minRecvAmount` the smallest fill. */
  datatype OfferInfo = OfferInfo(
    offeror: Address,
    sendToken: Address,
    recvToken: Address,
    sendAmount: i128,
    recvAmount: i128,
    minRecvAmount: i128,
    status: OfferStatus)
}
